=== FILE: README.md ===
# uniq-webhook — a Dafny model of the call-event relay core

The relay receives call events from the Uniq telephony platform on a webhook
and mirrors each call into the Bitrix CRM. This project models the sequential
logic of `main.py`:

- the **phone normaliser** `normalize_phone`, which turns the counterparty number
  into `+55…` form and uses the agent's area code (DDD) for local numbers;
- the **agent directory**, made of the static tables `UNIQ_TO_BITRIX`
  (extension → CRM user id) and `UNIQ_TO_DDD` (extension → area code);
- the **webhook handler** `webhook_handler` as a pure function. It takes a call
  event, the set of call ids already seen, and the CRM's answers to the remote
  calls. It returns the terminal status, the new seen-set and the trace of
  remote calls it made. First the dedup guard runs (`missing-id`,
  `duplicate`). Then the payload gates run (`invalid-payload`,
  `user-not-found`, `user-not-mapped`, `remote-not-found`,
  `remote-number-not-found`). Last comes the remote phase: register, finish,
  contact search, add activity, update activity.
- the handler over a **sequence of deliveries** in one process
  (`Relay.Run`). This is where the dedup promise is stated: a call id that
  reached the guard once never causes remote calls again.

Modules: `Wrappers` (Option/Result), `Directory`, `Phone`, `PhoneExamples`,
`Pipeline`, `PipelineExamples`, `Relay`.

The HTTP requests are not performed. Each answer the CRM would give is an input
value (`CrmAnswers`). Each request the handler would send appears as a
`RemoteCall` entry in the returned trace.

Some consequences of `main.py` that the model makes explicit:

- An input without digits normalises to `"+55"` (`PhoneExamples.ExampleEmpty`).
- The handler never checks the answers to the finish and update calls, and
  there is no deal lookup. Apart from the catch-all `error` status (see
  "Left out"), every status the handler returns is one of the eleven
  `Status` constructors.
- The activity is owned by the first contact found.
- The id is recorded in the seen-set right after the duplicate check. A
  retry is therefore a duplicate even when the first attempt stopped at a
  payload gate.

## Model

| member | source | states |
|---|---|---|
| Directory.TablesWellFormed | main.py:13-27 | both tables are keyed by the same five extensions 1529, 1557, 1560, 1520 and 1810; every user id is positive; every area code is two digits not starting with 5 |
| Directory.BitrixUser | main.py:70 | the lookup returns an id exactly for the extensions that also have an area code, and every id it returns is positive |
| Directory.Mapped | main.py:72 | the handler's `not bitrix_user_id` test, stated through `MappedIffKey`: it passes exactly for extensions in both tables |
| Directory.MappedIffKey | main.py:70-74 | the handler's falsy test on the user id rejects exactly the extensions missing from the tables |
| Directory.AreaCodeShape | main.py:21-27 | each configured area code is two digits whose first digit is not 5 |
| Phone.LocalDigits | main.py:32-34 | the digit filter followed by dropping one trunk zero yields only digits and never lengthens the input |
| Phone.NeedsAreaCode | main.py:35 | the area-code condition; through `WithAreaCode` and `AreaCodeRule`, the number gains exactly the two-digit code when it holds and the result then does not start with 55 |
| Phone.Digits | main.py:32 | the filter keeps only digits and never lengthens the input |
| Phone.DigitsConcat | main.py:32 | filtering digits distributes over concatenation |
| Phone.DigitsOfDigits | main.py:32 | a digits-only string is unchanged by the filter |
| Phone.StripLeadingZero | main.py:33-34 | at most one character is removed, only a leading '0', and what remains is a suffix of the input |
| Phone.WithAreaCode | main.py:35-36 | prepending the area code keeps a string digits-only and never yields one starting with the country code |
| Phone.WithCountryCode | main.py:37-38 | the result always starts with "55" and stays digits-only |
| Phone.Normalize | main.py:31-39 | every input, the empty one included, yields '+' followed only by digits that start with "55" |
| Phone.NormalizeSeesOnlyDigits | main.py:31-32 | normalising the digit filter of an input gives the same result as normalising the input |
| Phone.NonDigitIrrelevant | main.py:32 | inserting a non-digit character anywhere in the input never changes the result |
| Phone.SameLocalDigits | main.py:33-39 | inputs with the same digits after the trunk-zero strip normalise alike |
| Phone.LeadingZeroRule | main.py:33-34 | one leading zero is dropped when present, the digits are kept otherwise, and a second zero survives |
| Phone.AreaCodeRule | main.py:35-39 | the area code is prepended iff 8 or 9 digits remain and the extension has one; the result is then "+55"+area+digits, five longer than the digits; otherwise it is "+"+digits or "+55"+digits depending on whether they start with 55 |
| Phone.OutputDigits | main.py:31-39 | re-reading an output, with or without its '+', yields exactly its digits after the '+' |
| Phone.FixedPoint | main.py:31-39 | normalising an output again (with or without '+') returns it unchanged iff it does not have 8 or 9 digits or the extension has no area code |
| PhoneExamples.ExampleTrunkZero | main.py:31-39 | digits 031988887777 with extension 1529 give +5531988887777 (zero dropped, 11 digits, no area code) |
| PhoneExamples.ExampleLocalNumber | main.py:31-39 | digits 88887777 with extension 1529 give +551188887777 |
| PhoneExamples.ExampleShortNumber | main.py:31-39 | digits 1234567 with extension 1529 give +551234567 (too short for the area code) |
| PhoneExamples.ExampleNineDigits | main.py:35-39 | the nine digits 551234567 with extension 1529 give +5511551234567 |
| PhoneExamples.ExampleNoFixedPoint | main.py:31-39 | normalising 1234567 twice with extension 1529 gives +5511551234567, not the first output +551234567 |
| PhoneExamples.ExampleEmpty | main.py:31-39 | an input without digits normalises to "+55" |
| PhoneExamples.ExampleDigitsOnly | main.py:32 | a digits-only literal number is its own digit filter |
| Pipeline.Tag | main.py:53-184 | every status is reported as a non-empty string, and the string is "ok" exactly for the success status |
| Pipeline.HasId | main.py:52 | the missing-id test; through `Guard` and `HandleEvent`, an event without a non-empty id returns missing-id with no remote call and an unchanged seen-set |
| Pipeline.ActivityAdded | main.py:166 | the activity-result test; through `RemotePhase`, the status is activity-add-failed exactly when the contact search succeeded and this test fails |
| Pipeline.TagsDistinct | main.py:52-184 | distinct terminal statuses are reported with distinct status strings |
| Pipeline.FirstOfKind | main.py:63 | the result is the index of the first subscriber of the kind, or none exactly when no subscriber has that kind |
| Pipeline.CheckGates | main.py:60-86 | the gates fire in order (no subscribers, no "user", unmapped extension, no "remote", empty remote number), each iff the earlier ones passed and its own condition holds; on success the agent is the first "user", the counterparty the first "remote", the user id is the table's and the number is the normalised remote number |
| Pipeline.RemotePhase | main.py:89-184 | register comes first and exactly once; a missing register result stops with telephony-register-failed after one call; no contacts gives no-contact after exactly the register, finish and contact-search calls; activity-add-failed ends on the activity write after four calls; the activity is owned by the first contact with the agent as responsible; ok iff register, contact and activity all succeed, ending with the activity update |
| Pipeline.Guard | main.py:52-58 | missing or empty id gives missing-id, a seen id gives duplicate, and only an admitted id is added to the set |
| Pipeline.Process | main.py:60-184 | a gate failure returns the gate's status with no remote call; a payload that passes the gates gets exactly the remote phase's status and trace for the admitted parties |
| Pipeline.HandleEvent | main.py:46-184 | missing-id and duplicate leave the seen-set unchanged and make no call; an admitted id is recorded whatever follows; a gate status means no remote call; calls happen iff a remote-phase status is returned, and start with registering the normalised number under the agent's user id, the event id and the duration; a gate status is the failing gate's own, and a remote-phase status comes with exactly the remote phase's trace for the admitted parties |
| Pipeline.IdRecorded | main.py:52-58 | after handling, an event's non-empty id is always in the seen-set |
| Pipeline.RetryIsDuplicate | main.py:54-56 | an event whose id is already seen returns duplicate, makes no call and leaves the set unchanged |
| Pipeline.SecondDeliveryIsDuplicate | main.py:52-84 | delivering the same id a second time yields duplicate with no calls, even if the first attempt ended at a payload gate |
| Pipeline.NoWriteBeforeGates | main.py:52-86 | the trace holds a CRM write iff the id was new and every gate passed, and a write implies a remote-phase status |
| PipelineExamples.ExampleGatesPass | main.py:60-86 | agent 1529 with remote 031988887777 passes the gates as user 36 with number +5531988887777 |
| PipelineExamples.ExampleHappyPath | main.py:46-184 | with all CRM answers positive the handler returns ok after exactly register, finish, contact search, activity add for the first contact, and activity update |
| Relay.Run | main.py:52-58 | each delivery is handled with the seen-set left by the previous one, and seen-sets never shrink |
| Relay.SeenGrows | main.py:52-58 | along a run, a later seen-set contains every earlier one |
| Relay.RecordedAt | main.py:52-58 | a delivery with a non-empty id leaves that id in the seen-set |
| Relay.DuplicateAt | main.py:54-56 | a delivery whose id is in the previous seen-set is a duplicate with no calls |
| Relay.OnceRecorded | main.py:52-58 | once an id has been handled, every later delivery with that id is a duplicate and makes no remote call |
| Relay.AtMostOneRegistration | main.py:102-105 | two deliveries of one run that both made remote calls have different ids, so each call is registered at most once |

## Left out

- FastAPI routing, `request.json()` parsing and logging are I/O. The event is given as an already-parsed `CallEvent`.
- The HTTP requests to Bitrix are I/O. Each answer is an input field of `CrmAnswers`, and each request is a `RemoteCall` trace entry holding only the arguments the model tracks.
- The finish answer is discarded without being read (main.py:122-125). The update answer is decoded only for the log line at main.py:182, and a failure there falls into the catch-all `error` below. Neither answer is an input of the model.
- The call start time (`times.setup`), the 10800-second shift added to it and its rendering through `datetime` are left out, because the model has no clock or calendar.
- The activity subject and description strings, the recording URL, and the constant fields of the request bodies are left out. The subscriber display name is kept in the data but not used.
- The catch-all `except` at main.py:186-188, which returns `"error"`, is left out together with every exception raised in main.py:89-184 that it catches. These include a failed HTTP request to Bitrix, an answer that is not JSON (the `.json()` calls at main.py:106, 131, 165 and 182), a register result without `CALL_ID`, a non-integer contact id and `int(duration)` failing. So the model does not cover a run that has already written the activity and then ends in `"error"` because the update answer is not JSON. The model reports `ok` for that run.
- Duration: the event carries it as an integer already. Python's `int()` conversion of floats and strings is not modelled.
- `number` is a string for both subscribers. A non-string `number` is outside the model. For the counterparty it makes `normalize_phone` raise at main.py:86, outside the `try`, after the id was recorded at main.py:58, so the request ends with no status and a retry is a duplicate. For the agent, a non-string number matches no table key and gives `user-not-mapped`.
- The id is a string. A JSON id of another type, such as the number 0, is outside the model. A missing key or a JSON null for `type` or `number` reads as the empty string, and the code treats those the same way.
- A register `result` that is present but empty counts as absent (`None`). An activity id of 0 counts as a failure, as Python truthiness makes it.
- Phone.Digits: keeps only ASCII '0'..'9'. Python's `str.isdigit` also accepts other Unicode digits (superscripts, Arabic-Indic digits), and those are not modelled.
- Concurrency on the global seen-set is left out. Deliveries are handled one after another (`Relay.Run`).

=== FILE: directory.dfy ===
/**
 * The agent directory: two static tables keyed by the telephony extension
 * ("ramal") of an agent. One gives the agent's CRM user id, the other the
 * area code (DDD) used to complete local numbers dialled by that agent.
 */
module Directory {
  import opened Wrappers

  /** Extension -> CRM (Bitrix) user id. */
  const UniqToBitrix: map<string, int> :=
    map["1529" := 36, "1557" := 38, "1560" := 34, "1520" := 30, "1810" := 94]

  /** Extension -> two-digit area code. */
  const UniqToDdd: map<string, string> :=
    map["1529" := "11", "1557" := "11", "1560" := "71", "1520" := "71", "1810" := "11"]

  /**
   * Decimal digits. They are declared here, not in `Phone`, because the
   * area-code table's own well-formedness is stated with them and `Phone`
   * imports this module.
   */
  predicate IsDigit(c: char) {
    '0' <= c <= '9'
  }

  predicate AllDigits(s: string) {
    forall i :: 0 <= i < |s| ==> IsDigit(s[i])
  }

  /**
   * The dictionary lookup `UNIQ_TO_BITRIX.get(ramal)`. An id comes back
   * exactly for the extensions that also have an area code, and it is never
   * the falsy 0.
   */
  function BitrixUser(ramal: string): (r: Option<int>)
    ensures r.Some? <==> ramal in UniqToDdd
    ensures r.Some? ==> r.value > 0
  {
    TablesWellFormed();
    if ramal in UniqToBitrix then Some(UniqToBitrix[ramal]) else None
  }

  /**
   * An extension passes the handler's `not bitrix_user_id` test: it has an
   * entry and that entry is not the falsy id 0.
   */
  predicate Mapped(ramal: string) {
    var u := BitrixUser(ramal);
    u.Some? && u.value != 0
  }

  /**
   * The facts about the two tables the rest of the model relies on: both are
   * keyed by the same extensions, every user id is positive (so the falsy
   * test only fires on a missing key), and every area code is two digits
   * that do not begin with '5'.
   */
  lemma TablesWellFormed()
    ensures UniqToBitrix.Keys == UniqToDdd.Keys == {"1529", "1557", "1560", "1520", "1810"}
    ensures forall k :: k in UniqToBitrix ==> UniqToBitrix[k] > 0
    ensures forall k :: k in UniqToDdd ==> |UniqToDdd[k]| == 2 && AllDigits(UniqToDdd[k]) && UniqToDdd[k][0] != '5'
  {
  }

  /** The shape of one area code. */
  lemma AreaCodeShape(ramal: string)
    requires ramal in UniqToDdd
    ensures |UniqToDdd[ramal]| == 2 && AllDigits(UniqToDdd[ramal]) && UniqToDdd[ramal][0] != '5'
  {
    TablesWellFormed();
  }

  /** Being mapped is exactly having an entry in the user table. */
  lemma MappedIffKey(ramal: string)
    ensures Mapped(ramal) <==> ramal in UniqToBitrix
    ensures Mapped(ramal) <==> ramal in UniqToDdd
  {
    TablesWellFormed();
  }
}

=== FILE: phone.dfy ===
/**
 * The phone normaliser: turns the counterparty number reported by the
 * telephony platform into the "+55..." form used to look up CRM contacts.
 * The agent's extension supplies the area code for local numbers.
 */
module Phone {
  import opened Directory

  /** The national (Brazilian) country code. */
  const CountryCode: string := "55"

  predicate StartsWithCountryCode(s: string) {
    |s| >= 2 && s[0] == CountryCode[0] && s[1] == CountryCode[1]
  }

  /** `''.join(filter(str.isdigit, phone))`: the digits of `s`, in order. */
  function Digits(s: string): (r: string)
    ensures AllDigits(r)
    ensures |r| <= |s|
  {
    if |s| == 0 then ""
    else if IsDigit(s[0]) then [s[0]] + Digits(s[1..])
    else Digits(s[1..])
  }

  /** Removes one leading '0' (the domestic trunk prefix), and no more. */
  function StripLeadingZero(d: string): (r: string)
    ensures |d| - 1 <= |r| <= |d|
    ensures r == d[|d| - |r|..]
    ensures |r| < |d| <==> |d| > 0 && d[0] == '0'
  {
    if |d| > 0 && d[0] == '0' then d[1..] else d
  }

  /** The subscriber digits the normaliser works on: digits only, one trunk zero dropped. */
  function LocalDigits(phone: string): (r: string)
    ensures AllDigits(r)
    ensures |r| <= |phone|
  {
    StripLeadingZero(Digits(phone))
  }

  /** The area code is added to an 8- or 9-digit number when the extension has one. */
  predicate NeedsAreaCode(body: string, ramal: string) {
    (|body| == 8 || |body| == 9) && ramal in UniqToDdd
  }

  /** Prepends the extension's area code when the rule asks for it. */
  function WithAreaCode(body: string, ramal: string): (r: string)
    ensures AllDigits(body) ==> AllDigits(r)
    ensures NeedsAreaCode(body, ramal) ==> !StartsWithCountryCode(r)
  {
    if NeedsAreaCode(body, ramal) then
      AreaCodeShape(ramal);
      var r := UniqToDdd[ramal] + body;
      assert r[0] == UniqToDdd[ramal][0];
      r
    else body
  }

  /** Prepends the country code unless it is already there. */
  function WithCountryCode(s: string): (r: string)
    ensures StartsWithCountryCode(r)
    ensures AllDigits(s) ==> AllDigits(r)
  {
    if StartsWithCountryCode(s) then s
    else
      CountryCode + s
  }

  /**
   * `normalize_phone(phone, ramal)`. Total: every input, the empty string
   * included, yields a '+' followed by digits that begin with the country
   * code. AreaCodeRule below pins down which digits those are.
   */
  function Normalize(phone: string, ramal: string): (r: string)
    ensures |r| >= 3 && r[0] == '+' && StartsWithCountryCode(r[1..])
    ensures AllDigits(r[1..])
  {
    var full := WithCountryCode(WithAreaCode(LocalDigits(phone), ramal));
    var r := "+" + full;
    assert r[1..] == full;
    r
  }

  /** Filtering digits distributes over concatenation. */
  lemma {:induction false} DigitsConcat(a: string, b: string)
    ensures Digits(a + b) == Digits(a) + Digits(b)
    decreases |a|
  {
    if |a| == 0 {
      assert a + b == b;
    } else {
      assert (a + b)[0] == a[0];
      assert (a + b)[1..] == a[1..] + b;
      DigitsConcat(a[1..], b);
    }
  }

  /** A string made only of digits is its own digit filter. */
  lemma {:induction false} DigitsOfDigits(s: string)
    requires AllDigits(s)
    ensures Digits(s) == s
    decreases |s|
  {
    if |s| > 0 {
      DigitsOfDigits(s[1..]);
    }
  }

  /** Inputs with the same local digits normalise alike. */
  lemma SameLocalDigits(p: string, q: string, ramal: string)
    requires LocalDigits(p) == LocalDigits(q)
    ensures Normalize(p, ramal) == Normalize(q, ramal)
  {
  }

  /** The normaliser only looks at the digits of its input. */
  lemma NormalizeSeesOnlyDigits(phone: string, ramal: string)
    ensures Normalize(Digits(phone), ramal) == Normalize(phone, ramal)
  {
    DigitsOfDigits(Digits(phone));
  }

  /** Inserting a non-digit character anywhere never changes the result. */
  lemma NonDigitIrrelevant(a: string, c: char, b: string, ramal: string)
    requires !IsDigit(c)
    ensures Normalize(a + [c] + b, ramal) == Normalize(a + b, ramal)
  {
    assert Digits(a + [c] + b) == Digits(a + b) by {
      DigitsConcat(a + [c], b);
      DigitsConcat(a, [c]);
      DigitsConcat(a, b);
      assert Digits([c]) == "";
    }
    SameLocalDigits(a + [c] + b, a + b, ramal);
  }

  /**
   * At most one leading zero is removed: the local digits are the digit
   * filter with exactly one character dropped when it began with '0', and
   * a second zero survives.
   */
  lemma LeadingZeroRule(phone: string)
    ensures var d := Digits(phone); var body := LocalDigits(phone);
      && (|d| > 0 && d[0] == '0' ==> body == d[1..])
      && (!(|d| > 0 && d[0] == '0') ==> body == d)
      && (|d| >= 2 && d[0] == '0' && d[1] == '0' ==> |body| > 0 && body[0] == '0')
  {
  }

  /**
   * The area code rule. The extension's area code is prepended exactly when
   * 8 or 9 local digits remain and the extension has an area code; it shows
   * as a result five characters longer than the local digits, "+55" then the
   * area code then the local digits. Otherwise the result is the local
   * digits behind '+', with the country code in between unless the local
   * digits already begin with it.
   */
  lemma AreaCodeRule(phone: string, ramal: string)
    ensures var body := LocalDigits(phone); var r := Normalize(phone, ramal);
      && (NeedsAreaCode(body, ramal) <==> |r| == |body| + 5)
      && (NeedsAreaCode(body, ramal) ==> r == "+" + (CountryCode + (UniqToDdd[ramal] + body)))
      && (!NeedsAreaCode(body, ramal) && StartsWithCountryCode(body) ==> r == "+" + body)
      && (!NeedsAreaCode(body, ramal) && !StartsWithCountryCode(body) ==> r == "+" + (CountryCode + body))
  {
    var body := LocalDigits(phone);
    var withArea := WithAreaCode(body, ramal);
    var full := WithCountryCode(withArea);
    assert Normalize(phone, ramal) == "+" + full;
    if NeedsAreaCode(body, ramal) {
      AreaCodeShape(ramal);
      assert withArea == UniqToDdd[ramal] + body;
      assert full == CountryCode + withArea;
    } else {
      assert withArea == body;
    }
  }

  /**
   * Conditional fixed point. Feeding an output back in with the same
   * extension (with or without its '+') returns the same output exactly when
   * its digit count is not 8 or 9 or the extension has no area code.
   */
  lemma FixedPoint(phone: string, ramal: string)
    ensures var r := Normalize(phone, ramal);
      && Normalize(r[1..], ramal) == Normalize(r, ramal)
      && (Normalize(r, ramal) == r <==> !NeedsAreaCode(r[1..], ramal))
  {
    var r := Normalize(phone, ramal);
    var d := r[1..];
    OutputDigits(phone, ramal);
    SameLocalDigits(d, r, ramal);
    if NeedsAreaCode(d, ramal) {
      AreaCodeRule(r, ramal);
    } else {
      assert WithAreaCode(d, ramal) == d;
      assert WithCountryCode(d) == d;
      assert r == "+" + d;
    }
  }

  /** The local digits of an output (with or without its '+') are its digits after the '+'. */
  lemma OutputDigits(phone: string, ramal: string)
    ensures var r := Normalize(phone, ramal);
      LocalDigits(r) == r[1..] && LocalDigits(r[1..]) == r[1..]
  {
    var r := Normalize(phone, ramal);
    var d := r[1..];
    assert !IsDigit(r[0]) && r[1..] == d;
    assert Digits(r) == Digits(d);
    DigitsOfDigits(d);
  }
}

=== FILE: phone_examples.dfy ===
/**
 * Worked examples of the phone normaliser with extension "1529" (area code
 * "11"). Each is stated for every input whose digits are the given ones, so
 * it covers formatted spellings such as "(031) 98888-7777" as well.
 */
module PhoneExamples {
  import opened Directory
  import opened Phone

  /** A trunk zero is dropped and the 11 remaining digits get no area code. */
  lemma ExampleTrunkZero(p: string, ramal: string)
    requires Digits(p) == "031988887777" && ramal == "1529"
    ensures Normalize(p, ramal) == "+5531988887777"
  {
    var d := "31988887777";
    assert LocalDigits(p) == d;
    assert WithAreaCode(d, ramal) == d;
    assert WithCountryCode(d) == "55" + d;
  }

  /** An 8-digit local number gets the extension's area code "11". */
  lemma ExampleLocalNumber(p: string, ramal: string)
    requires Digits(p) == "88887777" && ramal == "1529"
    ensures Normalize(p, ramal) == "+551188887777"
  {
    var d := "88887777";
    assert LocalDigits(p) == d;
    assert WithAreaCode(d, ramal) == "11" + d;
    assert WithCountryCode("11" + d) == "55" + ("11" + d);
  }

  /** Seven digits are too short for the area code and gain only the country code. */
  lemma ExampleShortNumber(p: string, ramal: string)
    requires Digits(p) == "1234567" && ramal == "1529"
    ensures Normalize(p, ramal) == "+551234567"
  {
    var d := "1234567";
    assert LocalDigits(p) == d;
    assert WithAreaCode(d, ramal) == d;
    assert WithCountryCode(d) == "55" + d;
  }

  /** Nine digits that already start with "55" still receive the area code. */
  lemma ExampleNineDigits(q: string, ramal: string)
    requires LocalDigits(q) == "551234567" && ramal == "1529"
    ensures Normalize(q, ramal) == "+5511551234567"
  {
    var e := "551234567";
    var full := "5511551234567";
    assert WithCountryCode(WithAreaCode(e, ramal)) == full by {
      assert WithAreaCode(e, ramal) == "11" + e;
      assert WithCountryCode("11" + e) == "55" + ("11" + e);
    }
  }

  /**
   * The fixed point fails for a short number and a mapped extension: the
   * nine-digit output of a seven-digit number qualifies for the area code
   * when it is normalised again.
   */
  lemma ExampleNoFixedPoint(p: string, ramal: string)
    requires Digits(p) == "1234567" && ramal == "1529"
    ensures Normalize(p, ramal) == "+551234567"
    ensures Normalize(Normalize(p, ramal), ramal) == "+5511551234567"
  {
    ExampleShortNumber(p, ramal);
    OutputDigits(p, ramal);
    ExampleNineDigits(Normalize(p, ramal), ramal);
  }

  /** A number without digits normalises to the bare country code. */
  lemma ExampleEmpty(p: string, ramal: string)
    requires Digits(p) == ""
    ensures Normalize(p, ramal) == "+55"
  {
    assert WithAreaCode("", ramal) == "";
    assert WithCountryCode("") == "55";
  }

  /** A number written with digits only is its own digit filter. */
  lemma ExampleDigitsOnly(p: string)
    requires p == "031988887777"
    ensures Digits(p) == p
  {
    assert AllDigits(p);
    DigitsOfDigits(p);
  }
}

=== FILE: pipeline.dfy ===
/**
 * The webhook handler as a pure function. One call event, the set of call ids
 * already seen, and the answers the CRM would give to each remote call go in;
 * the terminal status, the new seen-set, and the trace of remote calls made
 * come out.
 */
module Pipeline {
  import opened Wrappers
  import opened Directory
  import opened Phone

  /** One entry of `payload.subscribers`; a missing key reads as "". */
  datatype Subscriber = Subscriber(kind: string, display: string, number: string)

  /** The parts of `payload` the handler reads: `id`, `subscribers` and `duration` (already an integer). */
  datatype CallEvent = CallEvent(id: Option<string>, subscribers: seq<Subscriber>, duration: int)

  /** One row of the CRM contact search. */
  datatype Contact = Contact(id: int, name: string)

  /**
   * What the CRM answers, one value per remote call the handler may make:
   * the registered call id (None when `result` is absent or empty), the
   * contacts found for the number, and the new activity id (None when absent).
   * The answers to the finish and update calls are ignored by the handler.
   */
  datatype CrmAnswers = CrmAnswers(registered: Option<string>, contacts: seq<Contact>, activity: Option<int>)

  /** A remote call the handler makes, with the arguments the model tracks. */
  datatype RemoteCall =
    | RegisterCall(user: int, phone: string, callId: string, duration: int)
    | FinishCall(remoteCallId: string, user: int, duration: int)
    | FindContacts(phone: string)
    | AddActivity(owner: int, responsible: int, phone: string)
    | UpdateActivity(activityId: int)

  /** The terminal statuses the handler returns. */
  datatype Status =
    | MissingId
    | Duplicate
    | InvalidPayload
    | UserNotFound
    | UserNotMapped
    | RemoteNotFound
    | RemoteNumberNotFound
    | TelephonyRegisterFailed
    | NoContact
    | ActivityAddFailed
    | Ok

  /** The value of the `status` key in the response body. */
  function Tag(s: Status): (r: string)
    ensures |r| > 0
    ensures r == "ok" <==> s == Ok
  {
    match s
    case MissingId => "missing-id"
    case Duplicate => "duplicate"
    case InvalidPayload => "invalid-payload"
    case UserNotFound => "user-not-found"
    case UserNotMapped => "user-not-mapped"
    case RemoteNotFound => "remote-not-found"
    case RemoteNumberNotFound => "remote-number-not-found"
    case TelephonyRegisterFailed => "telephony-register-failed"
    case NoContact => "no-contact"
    case ActivityAddFailed => "activity-add-failed"
    case Ok => "ok"
  }

  /** Distinct statuses are reported with distinct strings. */
  lemma TagsDistinct(a: Status, b: Status)
    requires a != b
    ensures Tag(a) != Tag(b)
  {
  }

  /** The statuses of the payload gates that follow the dedup guard. */
  predicate IsGateStatus(s: Status) {
    s.InvalidPayload? || s.UserNotFound? || s.UserNotMapped? || s.RemoteNotFound? || s.RemoteNumberNotFound?
  }

  /** The statuses reachable only after the telephony register call. */
  predicate IsRemoteStatus(s: Status) {
    s.TelephonyRegisterFailed? || s.NoContact? || s.ActivityAddFailed? || s.Ok?
  }

  /** A call that changes CRM state; the contact search only reads. */
  predicate IsWrite(c: RemoteCall) {
    !c.FindContacts?
  }

  const UserKind: string := "user"
  const RemoteKind: string := "remote"

  /** `not payload_id`: the id is missing or empty. */
  predicate HasId(e: CallEvent) {
    e.id.Some? && e.id.value != ""
  }

  /**
   * `next((sub for sub in subscribers if sub.get("type") == kind), None)`:
   * the index of the first subscriber of the given kind.
   */
  function FirstOfKind(subs: seq<Subscriber>, kind: string): (r: Option<nat>)
    ensures r.Some? ==> r.value < |subs| && subs[r.value].kind == kind
    ensures r.Some? ==> forall j :: 0 <= j < r.value ==> subs[j].kind != kind
    ensures r.None? <==> forall j :: 0 <= j < |subs| ==> subs[j].kind != kind
  {
    if |subs| == 0 then None
    else if subs[0].kind == kind then Some(0)
    else
      match FirstOfKind(subs[1..], kind)
      case None => None
      case Some(i) => Some(i + 1)
  }

  /** What the gates hand on to the remote phase: the agent's CRM user id and extension, and the normalised counterparty number. */
  datatype Parties = Parties(user: int, ramal: string, phone: string)

  /**
   * The payload gates, in the handler's order: no subscribers, no agent, an
   * unmapped agent extension, no counterparty, an empty counterparty number.
   * When all pass, the agent is the first "user" subscriber, the counterparty
   * the first "remote" one, and the number handed on is the normalised
   * counterparty number.
   */
  function CheckGates(subs: seq<Subscriber>): (r: Result<Parties, Status>)
    ensures r.Failure? ==> IsGateStatus(r.error)
    ensures r.Failure? && r.error == InvalidPayload <==> |subs| == 0
    ensures r.Failure? && r.error == UserNotFound <==>
      |subs| > 0 && forall j :: 0 <= j < |subs| ==> subs[j].kind != UserKind
    ensures r.Failure? && r.error == UserNotMapped <==>
      FirstOfKind(subs, UserKind).Some? && !Mapped(subs[FirstOfKind(subs, UserKind).value].number)
    ensures r.Failure? && r.error == RemoteNotFound <==>
      && FirstOfKind(subs, UserKind).Some? && Mapped(subs[FirstOfKind(subs, UserKind).value].number)
      && forall j :: 0 <= j < |subs| ==> subs[j].kind != RemoteKind
    ensures r.Failure? && r.error == RemoteNumberNotFound <==>
      && FirstOfKind(subs, UserKind).Some? && Mapped(subs[FirstOfKind(subs, UserKind).value].number)
      && FirstOfKind(subs, RemoteKind).Some? && subs[FirstOfKind(subs, RemoteKind).value].number == ""
    ensures r.Success? ==>
      && FirstOfKind(subs, UserKind).Some? && FirstOfKind(subs, RemoteKind).Some?
      && var agent := subs[FirstOfKind(subs, UserKind).value];
      && var remote := subs[FirstOfKind(subs, RemoteKind).value];
      && r.value.ramal == agent.number
      && agent.number in UniqToBitrix && r.value.user == UniqToBitrix[agent.number] && r.value.user > 0
      && remote.number != ""
      && r.value.phone == Normalize(remote.number, agent.number)
  {
    if |subs| == 0 then Failure(InvalidPayload)
    else
      match FirstOfKind(subs, UserKind)
      case None => Failure(UserNotFound)
      case Some(a) =>
        var ramal := subs[a].number;
        if !Mapped(ramal) then Failure(UserNotMapped)
        else
          match FirstOfKind(subs, RemoteKind)
          case None => Failure(RemoteNotFound)
          case Some(b) =>
            var number := subs[b].number;
            if number == "" then Failure(RemoteNumberNotFound)
            else
              MappedIffKey(ramal);
              TablesWellFormed();
              Success(Parties(BitrixUser(ramal).value, ramal, Normalize(number, ramal)))
  }

  /** An activity id the handler accepts: present and not the falsy 0. */
  predicate ActivityAdded(a: Option<int>) {
    a.Some? && a.value != 0
  }

  /**
   * The remote phase, run once the gates pass: register the call, finish it
   * (its answer is ignored), search contacts by the normalised number, add an
   * activity owned by the first contact, then update that activity (its
   * answer is ignored too). Each failed answer ends the phase at once.
   */
  function RemotePhase(a: Parties, callId: string, duration: int, crm: CrmAnswers): (r: (Status, seq<RemoteCall>))
    ensures IsRemoteStatus(r.0)
    ensures |r.1| >= 1 && r.1[0] == RegisterCall(a.user, a.phone, callId, duration)
    ensures forall k :: 1 <= k < |r.1| ==> !r.1[k].RegisterCall?
    ensures r.0 == TelephonyRegisterFailed <==> crm.registered.None?
    ensures r.0 == TelephonyRegisterFailed ==> |r.1| == 1
    ensures r.0 == NoContact ==>
              r.1 == [RegisterCall(a.user, a.phone, callId, duration), FinishCall(crm.registered.value, a.user, duration), FindContacts(a.phone)]
    ensures r.0 == NoContact <==> crm.registered.Some? && |crm.contacts| == 0
    ensures r.0 == ActivityAddFailed <==> crm.registered.Some? && |crm.contacts| > 0 && !ActivityAdded(crm.activity)
    ensures r.0 == Ok <==> crm.registered.Some? && |crm.contacts| > 0 && ActivityAdded(crm.activity)
    ensures crm.registered.Some? ==>
      |r.1| >= 3 && r.1[1] == FinishCall(crm.registered.value, a.user, duration) && r.1[2] == FindContacts(a.phone)
    ensures forall k :: 0 <= k < |r.1| && r.1[k].AddActivity? ==>
      |crm.contacts| > 0 && r.1[k] == AddActivity(crm.contacts[0].id, a.user, a.phone)
    ensures (exists k :: 0 <= k < |r.1| && r.1[k].AddActivity?) <==> r.0 == ActivityAddFailed || r.0 == Ok
    ensures r.0 == ActivityAddFailed ==> |r.1| == 4 && r.1[3] == AddActivity(crm.contacts[0].id, a.user, a.phone)
    ensures r.0 == Ok ==> |r.1| == 5 && crm.activity.Some? && r.1[4] == UpdateActivity(crm.activity.value)
    ensures r.0 != Ok ==> |r.1| <= 4 && forall k :: 0 <= k < |r.1| ==> !r.1[k].UpdateActivity?
  {
    var register := RegisterCall(a.user, a.phone, callId, duration);
    match crm.registered
    case None => (TelephonyRegisterFailed, [register])
    case Some(remoteId) =>
      var upToSearch := [register, FinishCall(remoteId, a.user, duration), FindContacts(a.phone)];
      if |crm.contacts| == 0 then (NoContact, upToSearch)
      else
        var add := AddActivity(crm.contacts[0].id, a.user, a.phone);
        if !ActivityAdded(crm.activity) then
          var calls := upToSearch + [add];
          assert calls[3].AddActivity?;
          (ActivityAddFailed, calls)
        else
          var calls := upToSearch + [add, UpdateActivity(crm.activity.value)];
          assert calls[3].AddActivity?;
          (Ok, calls)
  }

  /** The handler's answer: its status, the seen-set afterwards, and the remote calls made. */
  datatype Outcome = Outcome(status: Status, seen: set<string>, calls: seq<RemoteCall>)

  /**
   * The dedup guard. A missing or empty id and an id already seen are
   * rejected and leave the seen-set alone; any other id is admitted and
   * recorded at once.
   */
  function Guard(id: Option<string>, seen: set<string>): (r: Result<set<string>, Status>)
    ensures r.Failure? && r.error == MissingId <==> id.None? || id.value == ""
    ensures r.Failure? && r.error == Duplicate <==> id.Some? && id.value != "" && id.value in seen
    ensures r.Failure? ==> r.error == MissingId || r.error == Duplicate
    ensures r.Success? ==> id.Some? && id.value !in seen && r.value == seen + {id.value}
  {
    if id.None? || id.value == "" then Failure(MissingId)
    else if id.value in seen then Failure(Duplicate)
    else Success(seen + {id.value})
  }

  /**
   * Everything after the dedup guard: the payload gates, then the remote
   * phase. A gate failure makes no remote call; otherwise the status and
   * the trace are exactly those of the remote phase for the admitted parties.
   */
  function Process(subs: seq<Subscriber>, callId: string, duration: int, crm: CrmAnswers): (r: (Status, seq<RemoteCall>))
    ensures IsGateStatus(r.0) || IsRemoteStatus(r.0)
    ensures IsGateStatus(r.0) <==> CheckGates(subs).Failure?
    ensures IsGateStatus(r.0) ==> r.0 == CheckGates(subs).error && r.1 == []
    ensures IsRemoteStatus(r.0) ==> r.1 != []
    ensures r.1 != [] ==>
      && CheckGates(subs).Success?
      && var a := CheckGates(subs).value;
      r.1[0] == RegisterCall(a.user, a.phone, callId, duration)
    ensures CheckGates(subs).Success? ==> r == RemotePhase(CheckGates(subs).value, callId, duration, crm)
  {
    match CheckGates(subs)
    case Failure(gate) => (gate, [])
    case Success(a) => RemotePhase(a, callId, duration, crm)
  }

  /**
   * `webhook_handler`. The id gates come first and leave the seen-set alone;
   * an admitted id is recorded before any payload check, so a retry of the
   * same call is a duplicate however the first attempt ended. No remote call
   * is made unless every gate passes. A failed gate is reported with its own
   * status; an event that passes them all gets the remote phase's status and
   * trace, which starts with the register call for the normalised number.
   */
  function HandleEvent(e: CallEvent, seen: set<string>, crm: CrmAnswers): (out: Outcome)
    ensures out.status == MissingId <==> !HasId(e)
    ensures out.status == Duplicate <==> HasId(e) && e.id.value in seen
    ensures out.status == MissingId || out.status == Duplicate ==> out.seen == seen && out.calls == []
    ensures HasId(e) && e.id.value !in seen ==> out.seen == seen + {e.id.value}
    ensures IsGateStatus(out.status) <==> HasId(e) && e.id.value !in seen && CheckGates(e.subscribers).Failure?
    ensures out.calls != [] <==> IsRemoteStatus(out.status)
    ensures out.calls != [] ==>
      && HasId(e) && e.id.value !in seen && e.id.value in out.seen
      && CheckGates(e.subscribers).Success?
      && var a := CheckGates(e.subscribers).value;
      out.calls[0] == RegisterCall(a.user, a.phone, e.id.value, e.duration)
    ensures IsGateStatus(out.status) ==> out.status == CheckGates(e.subscribers).error
    ensures IsRemoteStatus(out.status) ==>
              && HasId(e) && CheckGates(e.subscribers).Success?
              && (out.status, out.calls) == RemotePhase(CheckGates(e.subscribers).value, e.id.value, e.duration, crm)
  {
    match Guard(e.id, seen)
    case Failure(rejected) => Outcome(rejected, seen, [])
    case Success(seen') =>
      var (status, calls) := Process(e.subscribers, e.id.value, e.duration, crm);
      Outcome(status, seen', calls)
  }

  /** Whatever its status, an event with a non-empty id leaves that id in the seen-set. */
  lemma IdRecorded(e: CallEvent, seen: set<string>, crm: CrmAnswers)
    requires HasId(e)
    ensures e.id.value in HandleEvent(e, seen, crm).seen
  {
  }

  /** An event whose id is already seen is a duplicate and makes no remote call. */
  lemma RetryIsDuplicate(e: CallEvent, seen: set<string>, crm: CrmAnswers)
    requires HasId(e) && e.id.value in seen
    ensures HandleEvent(e, seen, crm).status == Duplicate
    ensures HandleEvent(e, seen, crm).calls == []
    ensures HandleEvent(e, seen, crm).seen == seen
  {
  }

  /**
   * Dedup after first admission: handling the same call twice, the second
   * time with the seen-set the first left behind, yields "duplicate" and no
   * remote call, even when the first attempt stopped at a payload gate.
   */
  lemma SecondDeliveryIsDuplicate(e: CallEvent, e2: CallEvent, seen: set<string>, crm: CrmAnswers, crm2: CrmAnswers)
    requires HasId(e) && e2.id == e.id
    ensures HandleEvent(e2, HandleEvent(e, seen, crm).seen, crm2).status == Duplicate
    ensures HandleEvent(e2, HandleEvent(e, seen, crm).seen, crm2).calls == []
  {
    IdRecorded(e, seen, crm);
    RetryIsDuplicate(e2, HandleEvent(e, seen, crm).seen, crm2);
  }

  /**
   * No CRM write happens before the gates pass: the trace holds a write
   * exactly when the event's id was new and its payload passed every gate,
   * and then the status is one of the remote phase's.
   */
  lemma NoWriteBeforeGates(e: CallEvent, seen: set<string>, crm: CrmAnswers)
    ensures var out := HandleEvent(e, seen, crm);
      (exists k :: 0 <= k < |out.calls| && IsWrite(out.calls[k]))
      <==> HasId(e) && e.id.value !in seen && CheckGates(e.subscribers).Success?
    ensures var out := HandleEvent(e, seen, crm);
      (exists k :: 0 <= k < |out.calls| && IsWrite(out.calls[k])) ==> IsRemoteStatus(out.status)
  {
    var out := HandleEvent(e, seen, crm);
    if HasId(e) && e.id.value !in seen && CheckGates(e.subscribers).Success? {
      assert IsWrite(out.calls[0]);
    }
  }
}

=== FILE: pipeline_examples.dfy ===
/**
 * An end-to-end run of the handler: agent "Ana" on extension 1529 calls the
 * number 031988887777, the CRM knows a contact for it, and every remote call
 * succeeds.
 */
module PipelineExamples {
  import opened Wrappers
  import opened Directory
  import opened PhoneExamples
  import opened Pipeline

  /** The gates admit agent 36 (extension 1529) and the normalised number +5531988887777. */
  lemma ExampleGatesPass(subs: seq<Subscriber>)
    requires |subs| == 2
    requires subs[0] == Subscriber(UserKind, "Ana", "1529")
    requires subs[1].kind == RemoteKind && subs[1].number == "031988887777"
    ensures CheckGates(subs) == Success(Parties(36, "1529", "+5531988887777"))
  {
    assert FirstOfKind(subs, UserKind) == Some(0);
    assert FirstOfKind(subs, RemoteKind) == Some(1) by {
      assert subs[0].kind != RemoteKind;
    }
    var number := subs[1].number;
    ExampleDigitsOnly(number);
    ExampleTrunkZero(number, "1529");
    MappedIffKey("1529");
  }

  /** With every CRM answer positive the handler reaches "ok" after five remote calls. */
  lemma ExampleHappyPath(e: CallEvent, seen: set<string>, crm: CrmAnswers)
    requires e.id.Some? && e.id.value != "" && e.id.value !in seen
    requires |e.subscribers| == 2
    requires e.subscribers[0] == Subscriber(UserKind, "Ana", "1529")
    requires e.subscribers[1].kind == RemoteKind && e.subscribers[1].number == "031988887777"
    requires crm.registered.Some? && |crm.contacts| > 0 && ActivityAdded(crm.activity)
    ensures var out := HandleEvent(e, seen, crm); var phone := "+5531988887777";
      && out.status == Ok
      && out.seen == seen + {e.id.value}
      && out.calls == [
           RegisterCall(36, phone, e.id.value, e.duration),
           FinishCall(crm.registered.value, 36, e.duration),
           FindContacts(phone),
           AddActivity(crm.contacts[0].id, 36, phone),
           UpdateActivity(crm.activity.value)]
  {
    ExampleGatesPass(e.subscribers);
  }
}

=== FILE: relay.dfy ===
/**
 * The handler over the lifetime of one process: deliveries are handled in
 * order, each seeing the seen-set the previous one left behind. This is
 * where the dedup guard's promise lives: a call id that reached the guard
 * once never triggers remote calls again.
 */
module Relay {
  import opened Pipeline

  /** One webhook delivery together with the CRM's answers during its handling. */
  datatype Delivery = Delivery(event: CallEvent, crm: CrmAnswers)

  /** The seen-set each delivery starts from. */
  function SeenBefore(outs: seq<Outcome>, seen: set<string>, k: nat): set<string>
    requires k <= |outs|
  {
    if k == 0 then seen else outs[k - 1].seen
  }

  /**
   * Handles the deliveries one after another, starting from `seen`, and
   * returns every delivery's outcome. Each outcome is the handler's answer
   * to its delivery given the seen-set left by the one before, and the
   * seen-set never shrinks.
   */
  function Run(ds: seq<Delivery>, seen: set<string>): (outs: seq<Outcome>)
    ensures |outs| == |ds|
    ensures forall k {:trigger SeenBefore(outs, seen, k)} :: 0 <= k < |ds| ==>
      outs[k] == HandleEvent(ds[k].event, SeenBefore(outs, seen, k), ds[k].crm)
    ensures forall k {:trigger SeenBefore(outs, seen, k)} :: 0 <= k < |ds| ==>
      SeenBefore(outs, seen, k) <= outs[k].seen
    decreases |ds|
  {
    if |ds| == 0 then []
    else
      var first := HandleEvent(ds[0].event, seen, ds[0].crm);
      var rest := Run(ds[1..], first.seen);
      var outs := [first] + rest;
      assert forall k :: 1 <= k < |ds| ==> SeenBefore(outs, seen, k) == SeenBefore(rest, first.seen, k - 1);
      assert forall k :: 0 <= k < |rest| ==> outs[k + 1] == rest[k];
      outs
  }

  /** Seen-sets only grow along a run. */
  lemma {:induction false} SeenGrows(ds: seq<Delivery>, seen: set<string>, i: nat, j: nat)
    requires i <= j < |ds|
    ensures Run(ds, seen)[i].seen <= Run(ds, seen)[j].seen
    decreases j - i
  {
    if i < j {
      SeenGrows(ds, seen, i, j - 1);
      assert SeenBefore(Run(ds, seen), seen, j) <= Run(ds, seen)[j].seen;
    }
  }

  /** A delivery with a non-empty id leaves that id in the seen-set. */
  lemma RecordedAt(ds: seq<Delivery>, seen: set<string>, i: nat)
    requires i < |ds| && HasId(ds[i].event)
    ensures ds[i].event.id.value in Run(ds, seen)[i].seen
  {
    IdRecorded(ds[i].event, SeenBefore(Run(ds, seen), seen, i), ds[i].crm);
  }

  /** A delivery whose id the previous delivery left in the seen-set is a duplicate. */
  lemma DuplicateAt(ds: seq<Delivery>, seen: set<string>, j: nat)
    requires 0 < j < |ds| && HasId(ds[j].event)
    requires ds[j].event.id.value in Run(ds, seen)[j - 1].seen
    ensures Run(ds, seen)[j].status == Duplicate
    ensures Run(ds, seen)[j].calls == []
  {
    var outs := Run(ds, seen);
    assert SeenBefore(outs, seen, j) == outs[j - 1].seen;
    RetryIsDuplicate(ds[j].event, outs[j - 1].seen, ds[j].crm);
  }

  /**
   * Dedup across a run: once a delivery with a non-empty id has been handled,
   * every later delivery with that id is answered "duplicate" and makes no
   * remote call, whatever the first one's status was.
   */
  lemma OnceRecorded(ds: seq<Delivery>, seen: set<string>, i: nat, j: nat)
    requires i < j < |ds|
    requires HasId(ds[i].event) && ds[j].event.id == ds[i].event.id
    ensures Run(ds, seen)[j].status == Duplicate
    ensures Run(ds, seen)[j].calls == []
  {
    RecordedAt(ds, seen, i);
    SeenGrows(ds, seen, i, j - 1);
    DuplicateAt(ds, seen, j);
  }

  /** Each call id is registered with the telephony system at most once in a run. */
  lemma AtMostOneRegistration(ds: seq<Delivery>, seen: set<string>, i: nat, j: nat)
    requires i < j < |ds|
    requires Run(ds, seen)[i].calls != [] && Run(ds, seen)[j].calls != []
    ensures ds[i].event.id != ds[j].event.id
  {
    var before := SeenBefore(Run(ds, seen), seen, i);
    assert HasId(ds[i].event) by {
      assert Run(ds, seen)[i] == HandleEvent(ds[i].event, before, ds[i].crm);
    }
    if ds[i].event.id == ds[j].event.id {
      OnceRecorded(ds, seen, i, j);
    }
  }
}

=== FILE: wrappers.dfy ===
/** Failure-carrying datatypes shared by the rest of the model. */
module Wrappers {

  /** A value that may be absent: a missing JSON key or a remote call that returned nothing. */
  datatype Option<+T> = None | Some(value: T)

  /** Either the value a stage produced or the terminal status it stopped with. */
  datatype Result<+R, +E> = Success(value: R) | Failure(error: E)
}
